=== FILE: README.md ===
# ATM simulator account logic in Dafny

This project models the account-table logic of a desktop ATM demo. The program keeps
its accounts in a file `data.csv`. The file has a header row, then one record per
account: first name, last name, account number, PIN and balance. The callback class
`Logic` runs four operations on that table:

- creating an account (`acc_create`);
- logging in (`login`);
- withdrawing or depositing (`enter_logic`);
- writing a new balance back to the file (`update_csv`).

The model has four modules:

- `Text` (text.dfy) models `str.lower()`, `str.strip()`, `int()` on a digit string,
  and balances as decimal text in cents. It proves that formatting a balance and
  parsing it back gives the same balance.
- `Accounts` (accounts.dfy) states each callback's rules as functions of the entry
  fields and the table. It covers which error fires first, which row decides, what
  is appended and which rows change.
- `AccountProperties` (properties.dfy) relates the operations to each other. A new
  account logs in with its opening balance. A persisted balance is what the next
  login loads. It also shows three places where the source's rules disagree.
- `AtmLogic` (logic.dfy) is the class `Logic`. Its fields are the table (`None` while
  the file does not exist) and the session balance. Its methods have the source's
  loops, early exits and update order, and each is proved against the matching
  `Accounts` function.

Balances are integers of cents. Each callback takes the text of the entry fields as
parameters. It returns `None` on success, or the error it ends with: a ValueError whose
message the status label shows, or `ShortRow` for an IndexError the callback does not
catch.

The model follows what the code does, including where its own messages and checks
do not agree:

- Account creation tells the user "Account number and PIN must be 4 digits"
  (logic.py:100), but the check before it (logic.py:99) tests only the length. A
  number such as "abcd" is accepted, and no later login with it can succeed.
- Login compares account numbers as integers (logic.py:152), while the balance rewrite
  compares them as text (logic.py:247-248).
- During login, a ValueError raised by `int()` or `float()` on a file field is caught
  and shown (`NotANumber`), because the whole scan sits inside the `try` of
  logic.py:140-174. An IndexError on a short row is not caught (`ShortRow`).

## Model

| member | source | states |
|---|---|---|
| Text.Lower | logic.py:41-50 | lower-casing maps every character on its own and keeps the length |
| Text.Strip | logic.py:52-68 | the result is the stretch of the input between its leading and trailing whitespace (`StripsTo`): only whitespace is cut off, and none is left at either end |
| Text.StripEmpty | logic.py:97 | stripping leaves nothing exactly when the text is all whitespace |
| Text.StripFixesStripped | logic.py:195 | text with no whitespace at either end is left as it is |
| Text.LowerKeepsSpace | logic.py:41-50 | lower-casing neither adds nor removes whitespace: each character is whitespace after lower-casing exactly when it was before, so a text is blank after lower-casing exactly when it was before |
| Text.LowerOfStrippedLower | logic.py:41-50 | stripping a lower-cased text never brings back upper case |
| Text.LowerStrip | logic.py:41-50 | lower-casing then stripping gives lower-case text that is the lowered text minus its surrounding whitespace, and is empty exactly when the text is blank |
| Text.LowerFixesLowered | logic.py:41-50 | any stretch of a lower-cased string is already lower case |
| Text.ParseNat | logic.py:145-146 | int() succeeds exactly on a non-empty string of digits |
| Text.ParseNatLeadingZero | logic.py:152 | a leading zero does not change the number int() reads |
| Text.ParseNatInjective | logic.py:247-248 | two digit strings of one length denote the same number only if they are equal |
| Text.CentsText | logic.py:155 | the modelled `float()` reads only text starting with a digit or a minus sign; a negative amount has the sign; a plain digit string is that many whole units |
| Text.CentsCell | logic.py:249-254 | the balance cell ends in a point and two digits, and starts with a minus sign exactly when the balance is negative |
| Text.ParseFormatUnsignedCents | logic.py:249 | a non-negative balance written as whole part, point and two decimals reads back as the same amount |
| Text.ParseFormatCents | logic.py:249 | a balance written to the file reads back as the same amount |
| Accounts.NormalizeName | logic.py:34-50 | a name entry becomes lower case and is the lowered text with only its surrounding whitespace cut off; it is empty exactly when the text is blank |
| Accounts.NormalizeNumber | logic.py:52-68 | a number entry is the text with only its surrounding whitespace cut off; it is empty exactly when the text is blank |
| Accounts.Entries | logic.py:34-68 | each name field is its typed text lower-cased with only the surrounding whitespace cut off, each number field its typed text with only the surrounding whitespace cut off; a field counts as empty exactly when its text is blank |
| Accounts.Conflict | logic.py:102-112 | no error iff no row of five or more fields holds the number; otherwise the first such row decides between "already exists" (same names) and "already taken" |
| Accounts.Create | logic.py:88-124 | an empty field gives "All fields must be filled." and never the length error; the length error iff all are filled and the number or PIN is not 4 long; a clash error only from the scan; on success the old rows (or a new header) are kept and exactly one record with balance 100 follows |
| Accounts.Examine | logic.py:151-166 | one row skips iff a name or the integer account number differs; it loads a balance iff names, number and PIN all match; "Incorrect PIN" iff the PIN alone differs; a caught ValueError iff a field it reaches cannot be read as a number; an uncaught IndexError iff it reaches a field the row does not have |
| Accounts.Scan | logic.py:149-171 | "No account found" iff every row skips; otherwise the outcome is that of the first row that does not skip |
| Accounts.Login | logic.py:126-174 | "All fields must be filled." iff a field is empty; "No accounts exist yet" iff the fields are filled and there is no file; then unreadable entries give a ValueError; with readable entries and an existing file the outcome is exactly the scan's |
| Accounts.AmountText | logic.py:195 | a blank amount is unreadable, and an amount without surrounding whitespace is read as `float()` reads it |
| Accounts.Withdraw | logic.py:192-209 | an unreadable amount, then "Insufficient funds", then "must be positive", in that order; an amount that passes both checks is always accepted; on success the new balance is old minus amount and is never negative |
| Accounts.Deposit | logic.py:211-225 | an unreadable or non-positive amount is refused, and any readable positive amount is accepted; on success the new balance is old plus amount |
| Accounts.Transact | logic.py:187-228 | nothing happens iff neither toggle is on; with the withdraw toggle on the outcome, error included, is the withdrawal's whatever the deposit toggle says, otherwise the deposit's; the new balance is old minus or plus the amount |
| Accounts.UpdateRow | logic.py:246-250 | a full row is rewritten only in its balance field and only when the names match case-insensitively and number and PIN match as text; a row raises iff the comparison reaches a field it does not have (a blank row always does) |
| Accounts.UpdateRows | logic.py:242-254 | the rewrite succeeds iff no row raises, keeps the number and order of rows, and each row is that row's rewrite |
| AccountProperties.SkipsBefore | logic.py:151-152 | in a well-formed table, for a user not named "First Last", every row before the user's record lets the login scan go on |
| AccountProperties.LoginFindsRecord | logic.py:145-171 | in a well-formed table, for a user not named "First Last", the user's record decides the login: its balance if the PIN matches, else "Incorrect PIN" |
| AccountProperties.OpeningBalanceCents | logic.py:92 | the opening balance written at creation reads back as 100.00 |
| AccountProperties.AppendKeepsWellFormed | logic.py:114-119 | appending a record whose number no other record holds keeps the table well formed |
| AccountProperties.CreatedRecordLogsIn | logic.py:114-155 | for lower-case names other than "first" / "last" and a digit number and PIN, a successful creation keeps the table well formed and the new record opens with 100.00 |
| AccountProperties.CreateThenLogin | logic.py:114-155 | for a user not named "First Last", after a successful creation with digit number and PIN, the table stays well formed and a login with the same entries loads 100.00 |
| AccountProperties.LoggedInRecord | logic.py:152-155 | a successful login in a well-formed table came from a record that stores the entered number and PIN as text |
| AccountProperties.UpdateOnlyRecord | logic.py:244-250 | in a well-formed table the rewrite changes only the balance field of the logged-in record |
| AccountProperties.RewriteKeepsWellFormed | logic.py:249-254 | replacing one record's balance by a readable amount keeps the table well formed |
| AccountProperties.PersistThenLogin | logic.py:230-254 | after a login and a rewrite with the same entries, the table stays well formed and the next login loads the new balance |
| AccountProperties.ZeroPaddedNumbers | logic.py:152-154 | int() reads "0012" as 12 and "0042" as 42 |
| AccountProperties.HeaderSkipsAnn | logic.py:152 | the header row does not match the user "ann lee", so the scan goes on |
| AccountProperties.SampleRecordOpens | logic.py:152-155 | the record stored as "0012" / "0042" opens for the numbers 12 and 42 and loads 100.00 |
| AccountProperties.ShortNumberLogsIn | logic.py:145-155 | entries "12" / "42" log into the record stored as "0012" / "0042" |
| AccountProperties.ShortNumberBalanceIsNotPersisted | logic.py:247-248 | with the same "12" / "42" entries the rewrite matches no row and the file keeps its old balance |
| AccountProperties.HeaderNamesLowered | logic.py:117 | the header's name fields, lower-cased, read "first" and "last" |
| AccountProperties.HeaderNamedUserCannotLogIn | logic.py:116-152 | a user named "First Last" can create an account, but login reads the header row first and fails converting "Account#" |
| AccountProperties.LettersAccountCannotLogIn | logic.py:99-146 | an account number holding a letter passes creation, yet every login with it fails to convert it |
| AccountProperties.WithdrawThenDeposit | logic.py:192-225 | depositing the amount just withdrawn restores the balance |
| AccountProperties.DepositThenWithdraw | logic.py:192-225 | withdrawing the amount just deposited restores a non-negative balance |
| AtmLogic.Logic.constructor | logic.py:14-32 | the session starts with no balance and the table as the file holds it |
| AtmLogic.Logic.SetBalance | logic.py:79-86 | sets the session balance and changes nothing else |
| AtmLogic.Logic.CreateAccount | logic.py:88-124 | the table afterwards and the reported error are exactly those of `Accounts.Create`; the session balance is unchanged |
| AtmLogic.Logic.Login | logic.py:126-174 | the table is unchanged; the session balance becomes the loaded balance, or stays as it was when an error is reported |
| AtmLogic.Logic.FindAccount | logic.py:149-171 | the row loop of login, with its early return and break, yields exactly the outcome of `Accounts.Scan` |
| AtmLogic.Logic.Enter | logic.py:187-228 | withdraw takes precedence over deposit; with neither toggle nothing changes; otherwise the branch's outcome below |
| AtmLogic.Logic.EnterWithdrawal | logic.py:192-209 | a refused amount changes nothing; otherwise the balance is set to old minus amount first, then the table is rewritten with it, and if the rewrite raises the table stays as it was |
| AtmLogic.Logic.EnterDeposit | logic.py:211-225 | a refused amount changes nothing; otherwise the balance is set to old plus amount first, then the table is rewritten with it, and if the rewrite raises the table stays as it was |
| AtmLogic.Logic.Commit | logic.py:202-204 | the new balance is set first; the table becomes the row-by-row rewrite with that balance, or stays as it was when a short row raises |
| AtmLogic.Logic.UpdateCsv | logic.py:230-254 | the table afterwards is the row-by-row rewrite of `Accounts.UpdateRows`, or unchanged when a short row raises |

## Left out

- The window itself is not modelled, because it does not affect the table or the balance: labels, word wrap, visibility, `appear` (logic.py:176-185) and `exit_logic` (logic.py:256-277).
- Clearing the withdraw and deposit toggles is not modelled, for the same reason. Their checked state is an input of `Enter`.
- File access is not modelled. `data.csv` is an optional in-memory table whose rows are already split into fields, so CSV quoting and parsing are outside the model.
- `str.lower()` and `str.strip()` cover ASCII only. Non-ASCII case mappings and non-ASCII whitespace (such as U+0085 or U+00A0) are not modelled.
- Text.ParseNat: does not accept the signed, underscored, whitespace-padded or non-ASCII-digit forms Python's int() accepts, because the model reads only non-empty runs of ASCII digits.
- `float()` is modelled on integer cents. It accepts an optional minus sign, digits, and an optional point with up to two decimals. Exponents, `inf`, `nan`, a leading `+`, a leading point, underscores between digits (such as "1_000"), non-ASCII digits and more than two decimals are treated as unreadable. Binary floating-point rounding is not modelled.
- A new balance is written as text with two decimals. Python's `str(float)` formatting is not modelled.
- A short row raises an IndexError, which the callbacks do not catch. It is reported as `ShortRow`, with the state the source had reached at that point. What happens to the application after an uncaught exception is not modelled.
- AtmLogic.Logic.Enter: requires a session balance, because the enter button only becomes visible through a successful login.
- A missing file during `update_csv` is not modelled. The class invariant rules it out: a balance only exists after a login, and the file is never deleted.
- `get_balance` is the field read `GetBalance` and needs no contract.

=== FILE: accounts.dfy ===
/**
 * The rules of the account table of the ATM demo, as functions of the entry
 * fields and of the table the file `data.csv` holds: validating a new account,
 * finding a clashing account number, the login lookup, withdrawals and
 * deposits, and the rewrite that persists a balance.
 *
 * The file is a table of rows, each a sequence of text fields
 * (first, last, account number, PIN, balance). Balances are in cents.
 */
module Accounts {
  import opened Wrappers
  import opened Text

  type Row = seq<string>
  type Table = seq<Row>

  /**
   * Why a callback fails: a ValueError whose message the status label shows, or
   * (ShortRow only) an IndexError the callbacks do not catch.
   */
  datatype Error =
    | EmptyField             // "All fields must be filled."
    | BadLength              // "Account number and PIN must be 4 digits"
    | AccountExists          // "Account already exists, please login."
    | NumberTaken            // "Account number is already taken, please choose another."
    | NoAccounts             // "No accounts exist yet. ..."
    | NotANumber             // ValueError from int() or float() on a field that is not a number
    | IncorrectPin           // "Incorrect PIN, please try again."
    | NoAccountFound         // "No account found with those details. ..."
    | InsufficientFunds      // "Insufficient funds"
    | NonPositiveWithdrawal  // "Withdrawal amount must be positive"
    | NonPositiveDeposit     // "Deposit amount must be positive"
    | ShortRow               // IndexError on a row with too few fields (not caught by the callbacks)

  /** The four entry fields after normalisation by the get_* accessors. */
  datatype Fields = Fields(first: string, last: string, account: string, pin: string)

  /** The header row written when the file is created. */
  const Header: Row := ["First", "Last", "Account#", "PIN", "Balance"]

  /** The opening balance of a new account, as csv.writer writes the integer 100. */
  const OpeningBalance: string := "100"

  // ---------------------------------------------------------------------------
  // Entry fields

  /** get_first / get_last: the text in lower case, with surrounding whitespace removed. */
  function NormalizeName(text: string): (r: string)
    ensures Lower(r) == r && Stripped(r)
    ensures StripsTo(Lower(text), r)
    ensures r == [] <==> AllSpace(text)
  {
    LowerStrip(text);
    Strip(Lower(text))
  }

  /** get_account_num / get_pin: the text with surrounding whitespace removed, and nothing else. */
  function NormalizeNumber(text: string): (r: string)
    ensures StripsTo(text, r)
    ensures r == [] <==> AllSpace(text)
  {
    StripEmpty(text);
    Strip(text)
  }

  /** The four entries as the accessors return them; a field is empty exactly when its text is blank. */
  function Entries(firstText: string, lastText: string, accountText: string, pinText: string): (r: Fields)
    ensures Lower(r.first) == r.first && Lower(r.last) == r.last
    ensures Stripped(r.first) && Stripped(r.last) && Stripped(r.account) && Stripped(r.pin)
    ensures HasEmpty(r) <==> AllSpace(firstText) || AllSpace(lastText) || AllSpace(accountText) || AllSpace(pinText)
    ensures StripsTo(Lower(firstText), r.first) && StripsTo(Lower(lastText), r.last)
    ensures StripsTo(accountText, r.account) && StripsTo(pinText, r.pin)
  {
    Fields(NormalizeName(firstText), NormalizeName(lastText), NormalizeNumber(accountText), NormalizeNumber(pinText))
  }

  predicate HasEmpty(f: Fields) {
    f.first == "" || f.last == "" || f.account == "" || f.pin == ""
  }

  // ---------------------------------------------------------------------------
  // Account creation

  /** A row the creation scan looks at (it skips rows of fewer than five fields) holding this account number. */
  predicate Clashes(row: Row, account: string) {
    |row| >= 5 && row[2] == account
  }

  /** The message for a clash: the same person again, or somebody else's number. */
  function ClashKind(row: Row, f: Fields): Error
    requires |row| >= 3
  {
    if row[0] == f.first && row[1] == f.last && row[2] == f.account then AccountExists else NumberTaken
  }

  /** The creation scan: the first clashing row decides, whatever the rows after it hold. */
  function Conflict(rows: Table, f: Fields): (r: Option<Error>)
    ensures r.None? <==> forall i :: 0 <= i < |rows| ==> !Clashes(rows[i], f.account)
    ensures r.Some? ==>
      exists i :: 0 <= i < |rows| && Clashes(rows[i], f.account) && r.value == ClashKind(rows[i], f) &&
        forall j :: 0 <= j < i ==> !Clashes(rows[j], f.account)
  {
    if rows == [] then None
    else if Clashes(rows[0], f.account) then Some(ClashKind(rows[0], f))
    else
      var r := Conflict(rows[1..], f);
      assert forall i :: 1 <= i < |rows| ==> rows[i] == rows[1..][i - 1];
      r
  }

  /** The record acc_create appends: the four entries and the opening balance. */
  function NewRow(f: Fields): Row {
    [f.first, f.last, f.account, f.pin, OpeningBalance]
  }

  /** The rows the new record is appended to: the file's, or a fresh header. */
  function Base(table: Option<Table>): Table {
    if table.None? then [Header] else table.value
  }

  /** acc_create: the table afterwards, or the error it reports. */
  function Create(table: Option<Table>, f: Fields): (r: Result<Table, Error>)
    ensures r == Err(EmptyField) <==> HasEmpty(f)
    ensures r == Err(BadLength) <==> !HasEmpty(f) && (|f.account| != 4 || |f.pin| != 4)
    ensures r.Err? && r.error !in {EmptyField, BadLength} ==>
      table.Some? && Conflict(table.value, f) == Some(r.error)
    ensures r.Ok? <==>
      !HasEmpty(f) && |f.account| == 4 && |f.pin| == 4 &&
      (table.Some? ==> forall i :: 0 <= i < |table.value| ==> !Clashes(table.value[i], f.account))
    ensures r.Ok? ==>
      |r.value| == |Base(table)| + 1 && r.value[..|Base(table)|] == Base(table) &&
      r.value[|Base(table)|] == NewRow(f)
  {
    if HasEmpty(f) then Err(EmptyField)
    else if |f.account| != 4 || |f.pin| != 4 then Err(BadLength)
    else if table.Some? && Conflict(table.value, f).Some? then Err(Conflict(table.value, f).value)
    else Ok(Base(table) + [NewRow(f)])
  }

  // ---------------------------------------------------------------------------
  // Login

  /** What one row decides in the login scan: go on to the next row, or stop with an outcome. */
  datatype Step = Skip | Stop(outcome: Result<int, Error>)

  /** The login match: names equal case-insensitively, account numbers equal as integers. */
  predicate Identifies(row: Row, first: string, last: string, account: nat) {
    |row| >= 3 && Lower(row[0]) == first && Lower(row[1]) == last && ParseNat(row[2]) == Some(account)
  }

  /**
   * One pass of the login loop over a row. The conditions are evaluated left to right and
   * stop at the first false one, so a short row raises only where a missing field is read.
   */
  function Examine(row: Row, first: string, last: string, account: nat, pin: nat): (s: Step)
    ensures s.Stop? ==> s.outcome.Ok? || s.outcome.error in {NotANumber, IncorrectPin, ShortRow}
    ensures Identifies(row, first, last, account) ==> s.Stop?
    ensures s == Skip <==>
      (|row| >= 1 && Lower(row[0]) != first) ||
      (|row| >= 2 && Lower(row[0]) == first && Lower(row[1]) != last) ||
      (|row| >= 3 && Lower(row[0]) == first && Lower(row[1]) == last &&
       ParseNat(row[2]).Some? && ParseNat(row[2]) != Some(account))
    ensures s.Stop? && s.outcome.Ok? <==>
      Identifies(row, first, last, account) && |row| >= 5 &&
      ParseNat(row[3]) == Some(pin) && ParseCents(row[4]).Some?
    ensures s.Stop? && s.outcome.Ok? ==> ParseCents(row[4]) == Some(s.outcome.value)
    ensures s == Stop(Err(IncorrectPin)) <==>
      Identifies(row, first, last, account) && |row| >= 4 &&
      ParseNat(row[3]).Some? && ParseNat(row[3]) != Some(pin)
    ensures s == Stop(Err(NotANumber)) <==>
      (|row| >= 3 && Lower(row[0]) == first && Lower(row[1]) == last && ParseNat(row[2]).None?) ||
      (|row| >= 4 && Identifies(row, first, last, account) && ParseNat(row[3]).None?) ||
      (|row| >= 5 && Identifies(row, first, last, account) && ParseNat(row[3]) == Some(pin) &&
       ParseCents(row[4]).None?)
    ensures s == Stop(Err(ShortRow)) <==>
      |row| == 0 ||
      (|row| == 1 && Lower(row[0]) == first) ||
      (|row| == 2 && Lower(row[0]) == first && Lower(row[1]) == last) ||
      (|row| == 3 && Identifies(row, first, last, account)) ||
      (|row| == 4 && Identifies(row, first, last, account) && ParseNat(row[3]) == Some(pin))
  {
    if |row| < 1 then Stop(Err(ShortRow))
    else if Lower(row[0]) != first then Skip
    else if |row| < 2 then Stop(Err(ShortRow))
    else if Lower(row[1]) != last then Skip
    else if |row| < 3 then Stop(Err(ShortRow))
    else if ParseNat(row[2]).None? then Stop(Err(NotANumber))
    else if ParseNat(row[2]).value != account then Skip
    else if |row| < 4 then Stop(Err(ShortRow))
    else if ParseNat(row[3]).None? then Stop(Err(NotANumber))
    else if ParseNat(row[3]).value != pin then Stop(Err(IncorrectPin))
    else if |row| < 5 then Stop(Err(ShortRow))
    else if ParseCents(row[4]).None? then Stop(Err(NotANumber))
    else Stop(Ok(ParseCents(row[4]).value))
  }

  /** The login loop: the first row that does not skip decides; if every row skips, no account is found. */
  function Scan(rows: Table, first: string, last: string, account: nat, pin: nat): (r: Result<int, Error>)
    ensures r.Err? ==> r.error in {NoAccountFound, NotANumber, IncorrectPin, ShortRow}
    ensures r == Err(NoAccountFound) <==>
      forall i :: 0 <= i < |rows| ==> Examine(rows[i], first, last, account, pin) == Skip
    ensures r != Err(NoAccountFound) ==>
      exists i :: 0 <= i < |rows| && Examine(rows[i], first, last, account, pin) == Stop(r) &&
        forall j :: 0 <= j < i ==> Examine(rows[j], first, last, account, pin) == Skip
  {
    if rows == [] then Err(NoAccountFound)
    else
      match Examine(rows[0], first, last, account, pin)
      case Stop(outcome) => outcome
      case Skip =>
        var r := Scan(rows[1..], first, last, account, pin);
        assert forall i :: 1 <= i < |rows| ==> rows[i] == rows[1..][i - 1];
        r
  }

  /**
   * login: the balance the session loads, or the error it reports. Empty fields are
   * reported first, then a missing file, then entries int() cannot read; only then is
   * the file scanned.
   */
  function Login(table: Option<Table>, f: Fields): (r: Result<int, Error>)
    ensures r == Err(EmptyField) <==> HasEmpty(f)
    ensures r == Err(NoAccounts) <==> !HasEmpty(f) && table.None?
    ensures !HasEmpty(f) && table.Some? && (ParseNat(f.account).None? || ParseNat(f.pin).None?) ==>
      r == Err(NotANumber)
    ensures !HasEmpty(f) && table.Some? && ParseNat(f.account).Some? && ParseNat(f.pin).Some? ==>
      r == Scan(table.value, f.first, f.last, ParseNat(f.account).value, ParseNat(f.pin).value)
    ensures r.Ok? || r.error in {IncorrectPin, NoAccountFound, ShortRow} ==>
      !HasEmpty(f) && table.Some? && ParseNat(f.account).Some? && ParseNat(f.pin).Some?
  {
    if HasEmpty(f) then Err(EmptyField)
    else if table.None? then Err(NoAccounts)
    else if ParseNat(f.account).None? || ParseNat(f.pin).None? then Err(NotANumber)
    else Scan(table.value, f.first, f.last, ParseNat(f.account).value, ParseNat(f.pin).value)
  }

  // ---------------------------------------------------------------------------
  // Transactions

  /** float() of the amount entry: whitespace around the number is allowed. */
  function ParseAmount(text: string): Option<int> {
    ParseCents(Strip(text))
  }

  /** A blank amount entry is unreadable, and one without surrounding whitespace is read as it is. */
  lemma {:induction false} AmountText(text: string)
    ensures AllSpace(text) ==> ParseAmount(text).None?
    ensures Stripped(text) ==> ParseAmount(text) == ParseCents(text)
  {
    StripEmpty(text);
    StripFixesStripped(text);
  }

  /** The withdraw branch: "Insufficient funds" is checked before "must be positive". */
  function Withdraw(balance: int, amountText: string): (r: Result<int, Error>)
    ensures r == Err(NotANumber) <==> ParseAmount(amountText).None?
    ensures r == Err(InsufficientFunds) <==>
      ParseAmount(amountText).Some? && ParseAmount(amountText).value > balance
    ensures r == Err(NonPositiveWithdrawal) <==>
      ParseAmount(amountText).Some? && ParseAmount(amountText).value <= balance &&
      ParseAmount(amountText).value <= 0
    ensures r.Ok? <==>
      ParseAmount(amountText).Some? && 0 < ParseAmount(amountText).value <= balance
    ensures r.Ok? ==> 0 <= r.value < balance && balance - r.value == ParseAmount(amountText).value
  {
    match ParseAmount(amountText)
    case None => Err(NotANumber)
    case Some(amount) =>
      if amount > balance then Err(InsufficientFunds)
      else if amount <= 0 then Err(NonPositiveWithdrawal)
      else Ok(balance - amount)
  }

  /** The deposit branch: only a positive amount is accepted. */
  function Deposit(balance: int, amountText: string): (r: Result<int, Error>)
    ensures r == Err(NotANumber) <==> ParseAmount(amountText).None?
    ensures r == Err(NonPositiveDeposit) <==>
      ParseAmount(amountText).Some? && ParseAmount(amountText).value <= 0
    ensures r.Ok? <==> ParseAmount(amountText).Some? && ParseAmount(amountText).value > 0
    ensures r.Ok? ==> r.value > balance && r.value - balance == ParseAmount(amountText).value
  {
    match ParseAmount(amountText)
    case None => Err(NotANumber)
    case Some(amount) =>
      if amount <= 0 then Err(NonPositiveDeposit)
      else Ok(balance + amount)
  }

  /** enter_logic's choice of branch: withdraw wins over deposit; with neither toggle nothing happens. */
  function Transact(balance: int, withdrawOn: bool, depositOn: bool, amountText: string): (r: Option<Result<int, Error>>)
    ensures r.None? <==> !withdrawOn && !depositOn
    ensures withdrawOn ==> r == Some(Withdraw(balance, amountText))
    ensures !withdrawOn && depositOn ==> r == Some(Deposit(balance, amountText))
    ensures r.Some? ==>
      (r.value.Ok? <==>
        ParseAmount(amountText).Some? && 0 < ParseAmount(amountText).value &&
        (withdrawOn ==> ParseAmount(amountText).value <= balance))
    ensures r.Some? && r.value.Ok? ==>
      r.value.value == if withdrawOn then balance - ParseAmount(amountText).value
                       else balance + ParseAmount(amountText).value
  {
    if withdrawOn then Some(Withdraw(balance, amountText))
    else if depositOn then Some(Deposit(balance, amountText))
    else None
  }

  // ---------------------------------------------------------------------------
  // Persisting a balance

  /** The update_csv match on a row: names case-insensitively, account number and PIN as text. */
  predicate UpdateMatches(row: Row, f: Fields) {
    |row| >= 4 && Lower(row[0]) == Lower(f.first) && Lower(row[1]) == Lower(f.last) &&
    row[2] == f.account && row[3] == f.pin
  }

  /** One pass of the update_csv loop: the row to write back, or the IndexError a short row raises. */
  function UpdateRow(row: Row, f: Fields, cell: string): (r: Result<Row, Error>)
    ensures |row| >= 5 ==> r.Ok?
    ensures r.Err? <==>
      |row| == 0 ||
      (|row| == 1 && Lower(row[0]) == Lower(f.first)) ||
      (|row| == 2 && Lower(row[0]) == Lower(f.first) && Lower(row[1]) == Lower(f.last)) ||
      (|row| == 3 && Lower(row[0]) == Lower(f.first) && Lower(row[1]) == Lower(f.last) && row[2] == f.account) ||
      (|row| == 4 && UpdateMatches(row, f))
    ensures r.Err? ==> r.error == ShortRow
    ensures r.Ok? ==> r.value == if |row| >= 5 && UpdateMatches(row, f) then row[4 := cell] else row
  {
    if |row| < 1 then Err(ShortRow)
    else if Lower(row[0]) != Lower(f.first) then Ok(row)
    else if |row| < 2 then Err(ShortRow)
    else if Lower(row[1]) != Lower(f.last) then Ok(row)
    else if |row| < 3 then Err(ShortRow)
    else if row[2] != f.account then Ok(row)
    else if |row| < 4 then Err(ShortRow)
    else if row[3] != f.pin then Ok(row)
    else if |row| < 5 then Err(ShortRow)
    else Ok(row[4 := cell])
  }

  /** update_csv: the rewritten table, row for row, or the error of the first row that raises. */
  function UpdateRows(rows: Table, f: Fields, cell: string): (r: Result<Table, Error>)
    ensures r.Ok? <==> forall i :: 0 <= i < |rows| ==> UpdateRow(rows[i], f, cell).Ok?
    ensures r.Err? ==> r.error == ShortRow
    ensures r.Ok? ==>
      |r.value| == |rows| && forall i :: 0 <= i < |rows| ==> UpdateRow(rows[i], f, cell) == Ok(r.value[i])
  {
    if rows == [] then Ok([])
    else
      match UpdateRow(rows[0], f, cell)
      case Err(e) => Err(e)
      case Ok(row) =>
        assert forall i :: 1 <= i < |rows| ==> rows[i] == rows[1..][i - 1];
        match UpdateRows(rows[1..], f, cell)
        case Err(e) => Err(e)
        case Ok(rest) => Ok([row] + rest)
  }
}

=== FILE: logic.dfy ===
/**
 * The callback class of the ATM window. Its state is the contents of `data.csv`
 * (absent until the first account is created) and the session balance. Each
 * callback takes the text of the entry fields and returns None when it succeeds,
 * or the error it ends with: a ValueError whose message the status label shows,
 * or ShortRow for an IndexError the callback does not catch.
 */
module AtmLogic {
  import opened Wrappers
  import opened Text
  import opened Accounts

  class Logic {
    /** The rows of `data.csv`; None while the file does not exist. */
    var table: Option<Table>
    /** The balance of the logged-in session, in cents; None before the first login. */
    var balance: Option<int>

    /** A balance is only ever loaded from the file, and the file is never removed. */
    ghost predicate Valid()
      reads this
    {
      balance.Some? ==> table.Some?
    }

    constructor (file: Option<Table>)
      ensures Valid() && table == file && balance == None
    {
      table := file;
      balance := None;
    }

    function GetBalance(): Option<int>
      reads this
    {
      balance
    }

    method SetBalance(b: int)
      requires table.Some?
      modifies this
      ensures Valid() && balance == Some(b) && table == old(table)
    {
      balance := Some(b);
    }

    /** acc_create: validate the entries, scan for a clashing number, append the record. */
    method CreateAccount(firstText: string, lastText: string, accountText: string, pinText: string)
      returns (err: Option<Error>)
      requires Valid()
      modifies this
      ensures Valid() && balance == old(balance)
      ensures match Create(old(table), Entries(firstText, lastText, accountText, pinText))
        case Ok(t) => table == Some(t) && err == None
        case Err(e) => table == old(table) && err == Some(e)
    {
      var f := Entries(firstText, lastText, accountText, pinText);
      if f.first == "" || f.last == "" || f.account == "" || f.pin == "" {
        return Some(EmptyField);
      } else if |f.account| != 4 || |f.pin| != 4 {
        return Some(BadLength);
      }
      if table.Some? {
        var rows := table.value;
        var i := 0;
        while i < |rows|
          invariant 0 <= i <= |rows|
          invariant Conflict(rows, f) == Conflict(rows[i..], f)
        {
          var row := rows[i];
          assert rows[i..][1..] == rows[i + 1..];
          if |row| < 5 {
            i := i + 1;
            continue;
          }
          if row[0] == f.first && row[1] == f.last && row[2] == f.account {
            return Some(AccountExists);
          } else if row[2] == f.account {
            return Some(NumberTaken);
          }
          i := i + 1;
        }
        assert Conflict(rows, f).None?;
      }
      table := Some(Base(table) + [NewRow(f)]);
      err := None;
    }

    /** login: the first row with the user's names and account number decides. */
    method Login(firstText: string, lastText: string, accountText: string, pinText: string)
      returns (err: Option<Error>)
      requires Valid()
      modifies this
      ensures Valid() && table == old(table)
      ensures match Accounts.Login(table, Entries(firstText, lastText, accountText, pinText))
        case Ok(b) => balance == Some(b) && err == None
        case Err(e) => balance == old(balance) && err == Some(e)
    {
      var f := Entries(firstText, lastText, accountText, pinText);
      if f.first == "" || f.last == "" || f.account == "" || f.pin == "" {
        return Some(EmptyField);
      }
      if table.None? {
        return Some(NoAccounts);
      }
      var accountNum := ParseNat(f.account);
      if accountNum.None? {
        return Some(NotANumber);
      }
      var pinNum := ParseNat(f.pin);
      if pinNum.None? {
        return Some(NotANumber);
      }
      var outcome := FindAccount(table.value, f.first, f.last, accountNum.value, pinNum.value);
      match outcome
      case Ok(loaded) =>
        SetBalance(loaded);
        err := None;
      case Err(e) =>
        err := Some(e);
    }

    /**
     * The loop of login over the rows: the first row with the user's names and account
     * number loads its balance or stops with "Incorrect PIN"; conversions and short rows
     * raise on the way.
     */
    static method FindAccount(rows: Table, first: string, last: string, account: nat, pin: nat)
      returns (outcome: Result<int, Error>)
      ensures outcome == Scan(rows, first, last, account, pin)
    {
      var incorrectPin := false;
      var i := 0;
      while i < |rows|
        invariant 0 <= i <= |rows|
        invariant Scan(rows, first, last, account, pin) == Scan(rows[i..], first, last, account, pin)
      {
        var row := rows[i];
        assert rows[i..][1..] == rows[i + 1..];
        assert Scan(rows[i..], first, last, account, pin) ==
          match Examine(row, first, last, account, pin)
          case Skip => Scan(rows[i + 1..], first, last, account, pin)
          case Stop(o) => o;
        if |row| < 1 {
          return Err(ShortRow);
        }
        if Lower(row[0]) == first {
          if |row| < 2 {
            return Err(ShortRow);
          }
          if Lower(row[1]) == last {
            if |row| < 3 {
              return Err(ShortRow);
            }
            var stored := ParseNat(row[2]);
            if stored.None? {
              return Err(NotANumber);
            }
            if stored.value == account {
              if |row| < 4 {
                return Err(ShortRow);
              }
              var storedPin := ParseNat(row[3]);
              if storedPin.None? {
                return Err(NotANumber);
              }
              if storedPin.value == pin {
                if |row| < 5 {
                  return Err(ShortRow);
                }
                var loaded := ParseCents(row[4]);
                if loaded.None? {
                  return Err(NotANumber);
                }
                return Ok(loaded.value);
              } else {
                incorrectPin := true;
                break;
              }
            }
          }
        }
        i := i + 1;
      }
      if incorrectPin {
        outcome := Err(IncorrectPin);
      } else {
        outcome := Err(NoAccountFound);
      }
    }

    /** enter_logic: withdraw or deposit the amount and persist the new balance. */
    method Enter(withdrawOn: bool, depositOn: bool, amountText: string,
                 firstText: string, lastText: string, accountText: string, pinText: string)
      returns (err: Option<Error>)
      requires Valid() && balance.Some?
      modifies this
      ensures Valid() && balance.Some?
      ensures match Transact(old(balance).value, withdrawOn, depositOn, amountText)
        case None => balance == old(balance) && table == old(table) && err == None
        case Some(Err(e)) => balance == old(balance) && table == old(table) && err == Some(e)
        case Some(Ok(b)) =>
          balance == Some(b) &&
          match UpdateRows(old(table).value, Entries(firstText, lastText, accountText, pinText), FormatCents(b))
          case Ok(t) => table == Some(t) && err == None
          case Err(e) => table == old(table) && err == Some(e)
    {
      var f := Entries(firstText, lastText, accountText, pinText);
      if withdrawOn {
        err := EnterWithdrawal(amountText, f);
      } else if depositOn {
        err := EnterDeposit(amountText, f);
      } else {
        err := None;
      }
    }

    /** The withdraw branch of enter_logic. */
    method EnterWithdrawal(amountText: string, f: Fields) returns (err: Option<Error>)
      requires Valid() && balance.Some?
      modifies this
      ensures Valid()
      ensures match Withdraw(old(balance).value, amountText)
        case Err(e) => balance == old(balance) && table == old(table) && err == Some(e)
        case Ok(b) =>
          balance == Some(b) &&
          match UpdateRows(old(table).value, f, FormatCents(b))
          case Ok(t) => table == Some(t) && err == None
          case Err(e) => table == old(table) && err == Some(e)
    {
      var current := balance.value;
      var amount := ParseAmount(amountText);
      if amount.None? {
        return Some(NotANumber);
      }
      if amount.value > current {
        return Some(InsufficientFunds);
      }
      if amount.value <= 0 {
        return Some(NonPositiveWithdrawal);
      }
      assert Withdraw(current, amountText) == Ok(current - amount.value);
      err := Commit(current - amount.value, f);
    }

    /** The deposit branch of enter_logic. */
    method EnterDeposit(amountText: string, f: Fields) returns (err: Option<Error>)
      requires Valid() && balance.Some?
      modifies this
      ensures Valid()
      ensures match Deposit(old(balance).value, amountText)
        case Err(e) => balance == old(balance) && table == old(table) && err == Some(e)
        case Ok(b) =>
          balance == Some(b) &&
          match UpdateRows(old(table).value, f, FormatCents(b))
          case Ok(t) => table == Some(t) && err == None
          case Err(e) => table == old(table) && err == Some(e)
    {
      var current := balance.value;
      var amount := ParseAmount(amountText);
      if amount.None? {
        return Some(NotANumber);
      }
      if amount.value <= 0 {
        return Some(NonPositiveDeposit);
      }
      assert Deposit(current, amountText) == Ok(current + amount.value);
      err := Commit(current + amount.value, f);
    }

    /** The end of both branches of enter_logic: set the new balance, then persist it. */
    method Commit(newBalance: int, f: Fields) returns (err: Option<Error>)
      requires Valid() && balance.Some?
      modifies this
      ensures Valid() && balance == Some(newBalance)
      ensures match UpdateRows(old(table).value, f, FormatCents(newBalance))
        case Ok(t) => table == Some(t) && err == None
        case Err(e) => table == old(table) && err == Some(e)
    {
      SetBalance(newBalance);
      assert Fields(f.first, f.last, f.account, f.pin) == f;
      err := UpdateCsv(f.first, f.last, f.account, f.pin, newBalance);
    }

    /** update_csv: rewrite the table, setting the balance field of every row the entries match. */
    method UpdateCsv(first: string, last: string, account: string, pin: string, newBalance: int)
      returns (err: Option<Error>)
      requires Valid() && table.Some?
      modifies this
      ensures Valid() && balance == old(balance)
      ensures match UpdateRows(old(table).value, Fields(first, last, account, pin), FormatCents(newBalance))
        case Ok(t) => table == Some(t) && err == None
        case Err(e) => table == old(table) && err == Some(e)
    {
      var f := Fields(first, last, account, pin);
      var cell := FormatCents(newBalance);
      var rows := table.value;
      var written: Table := [];
      var i := 0;
      while i < |rows|
        invariant 0 <= i <= |rows| && |written| == i
        invariant forall k :: 0 <= k < i ==> UpdateRow(rows[k], f, cell) == Ok(written[k])
      {
        var row := rows[i];
        if |row| < 1 {
          return Some(ShortRow);
        }
        if Lower(row[0]) == Lower(first) {
          if |row| < 2 {
            return Some(ShortRow);
          }
          if Lower(row[1]) == Lower(last) {
            if |row| < 3 {
              return Some(ShortRow);
            }
            if row[2] == account {
              if |row| < 4 {
                return Some(ShortRow);
              }
              if row[3] == pin {
                if |row| < 5 {
                  return Some(ShortRow);
                }
                row := row[4 := cell];
              }
            }
          }
        }
        written := written + [row];
        i := i + 1;
      }
      var r := UpdateRows(rows, f, cell);
      assert r.Ok? && |r.value| == |written|;
      assert forall k :: 0 <= k < |rows| ==> r.value[k] == written[k];
      assert r.value == written;
      table := Some(written);
      err := None;
    }
  }
}

=== FILE: properties.dfy ===
/**
 * Properties that relate several operations on the account table: a new account
 * can log in with its opening balance, a persisted balance is what the next
 * login loads, and the places where the lookup rules of login and of the
 * balance rewrite disagree.
 */
module AccountProperties {
  import opened Wrappers
  import opened Text
  import opened Accounts

  /** A field the creation rules accept and int() can read: four ASCII digits. */
  predicate IsNumberField(s: string) {
    |s| == 4 && AllDigits(s)
  }

  /** A record as account creation writes it and the balance rewrite keeps it. */
  predicate IsAccountRow(row: Row) {
    |row| == 5 && IsNumberField(row[2]) && IsNumberField(row[3]) && ParseCents(row[4]).Some?
  }

  /** The header, then records with pairwise distinct account numbers. */
  predicate WellFormed(rows: Table) {
    |rows| >= 1 && rows[0] == Header &&
    (forall i :: 1 <= i < |rows| ==> IsAccountRow(rows[i])) &&
    (forall i, j :: 1 <= i < j < |rows| ==> rows[i][2] != rows[j][2])
  }

  /** Entry fields whose names the login scan would match against the header row. */
  predicate NamedLikeHeader(f: Fields) {
    f.first == Lower(Header[0]) && f.last == Lower(Header[1])
  }

  /** Entry fields in the form account creation stores them, for a user not named like the header. */
  predicate Canonical(f: Fields) {
    !HasEmpty(f) && IsNumberField(f.account) && IsNumberField(f.pin) &&
    Lower(f.first) == f.first && Lower(f.last) == f.last && !NamedLikeHeader(f)
  }

  /** Every row before a record with the user's names and account number lets the login scan go on. */
  lemma {:induction false} SkipsBefore(rows: Table, f: Fields, i: nat)
    requires WellFormed(rows) && Canonical(f) && 1 <= i < |rows| && rows[i][2] == f.account
    ensures forall j :: 0 <= j < i ==>
      Examine(rows[j], f.first, f.last, ParseNat(f.account).value, ParseNat(f.pin).value) == Skip
  {
    var a, p := ParseNat(f.account).value, ParseNat(f.pin).value;
    forall j | 0 <= j < i
      ensures Examine(rows[j], f.first, f.last, a, p) == Skip
    {
      if j > 0 && Lower(rows[j][0]) == f.first && Lower(rows[j][1]) == f.last {
        if ParseNat(rows[j][2]) == Some(a) {
          ParseNatInjective(rows[j][2], f.account);
          assert false;
        }
      }
    }
  }

  /**
   * In a well-formed table, the record with the user's names and account number decides
   * the login: its balance when the PIN is the stored one, "Incorrect PIN" otherwise.
   */
  lemma {:induction false} LoginFindsRecord(rows: Table, f: Fields, i: nat)
    requires WellFormed(rows) && Canonical(f) && 1 <= i < |rows|
    requires Lower(rows[i][0]) == f.first && Lower(rows[i][1]) == f.last && rows[i][2] == f.account
    ensures Login(Some(rows), f) ==
      if rows[i][3] == f.pin then Ok(ParseCents(rows[i][4]).value) else Err(IncorrectPin)
  {
    var a, p := ParseNat(f.account).value, ParseNat(f.pin).value;
    SkipsBefore(rows, f, i);
    var r := Scan(rows, f.first, f.last, a, p);
    assert Identifies(rows[i], f.first, f.last, a);
    var k :| 0 <= k < |rows| && Examine(rows[k], f.first, f.last, a, p) == Stop(r) &&
      forall j :: 0 <= j < k ==> Examine(rows[j], f.first, f.last, a, p) == Skip;
    assert k == i;
    if rows[i][3] != f.pin && ParseNat(rows[i][3]) == Some(p) {
      ParseNatInjective(rows[i][3], f.pin);
    }
  }

  /** The opening balance reads back as 100.00. */
  lemma {:induction false} OpeningBalanceCents()
    ensures ParseCents(OpeningBalance) == Some(10000)
  {
    assert OpeningBalance[..2] == "10" && "10"[..1] == "1";
  }

  /** Appending a record with a number no other record holds keeps the table well formed. */
  lemma {:induction false} AppendKeepsWellFormed(rows: Table, row: Row)
    requires WellFormed(rows) && IsAccountRow(row)
    requires forall i :: 1 <= i < |rows| ==> rows[i][2] != row[2]
    ensures WellFormed(rows + [row])
  {
    var t := rows + [row];
    forall i, j | 1 <= i < j < |t|
      ensures t[i][2] != t[j][2]
    {
      if j == |t| - 1 {
        assert t[j] == row && t[i] == rows[i];
      }
    }
  }

  /**
   * Creating an account and then logging in with the same entries loads the opening
   * balance, provided the table was well formed and the number and PIN are digits.
   */
  lemma {:induction false} CreateThenLogin(table: Option<Table>, firstText: string, lastText: string, accountText: string, pinText: string)
    requires table.Some? ==> WellFormed(table.value)
    requires Create(table, Entries(firstText, lastText, accountText, pinText)).Ok?
    requires AllDigits(NormalizeNumber(accountText)) && AllDigits(NormalizeNumber(pinText))
    requires !NamedLikeHeader(Entries(firstText, lastText, accountText, pinText))
    ensures WellFormed(Create(table, Entries(firstText, lastText, accountText, pinText)).value)
    ensures Login(Some(Create(table, Entries(firstText, lastText, accountText, pinText)).value),
                  Entries(firstText, lastText, accountText, pinText)) == Ok(10000)
  {
    var f := Entries(firstText, lastText, accountText, pinText);
    CreatedRecordLogsIn(table, f);
  }

  /** The same round trip for fields already normalised: lower-case names, digit number and PIN. */
  lemma {:induction false} CreatedRecordLogsIn(table: Option<Table>, f: Fields)
    requires table.Some? ==> WellFormed(table.value)
    requires Create(table, f).Ok?
    requires AllDigits(f.account) && AllDigits(f.pin) && !NamedLikeHeader(f)
    requires Lower(f.first) == f.first && Lower(f.last) == f.last
    ensures WellFormed(Create(table, f).value)
    ensures Login(Some(Create(table, f).value), f) == Ok(10000)
  {
    var base := Base(table);
    var t := Create(table, f).value;
    assert t == base + [NewRow(f)];
    OpeningBalanceCents();
    assert forall i :: 1 <= i < |base| ==> base[i][2] != f.account by {
      forall i | 1 <= i < |base|
        ensures base[i][2] != f.account
      {
        assert !Clashes(table.value[i], f.account);
      }
    }
    AppendKeepsWellFormed(base, NewRow(f));
    assert Canonical(f);
    LoginFindsRecord(t, f, |t| - 1);
  }

  /** A successful login in a well-formed table was decided by a record holding the entered number and PIN as text. */
  lemma {:induction false} LoggedInRecord(rows: Table, f: Fields) returns (i: nat)
    requires WellFormed(rows) && Canonical(f)
    requires Login(Some(rows), f).Ok?
    ensures 1 <= i < |rows|
    ensures Lower(rows[i][0]) == f.first && Lower(rows[i][1]) == f.last
    ensures rows[i][2] == f.account && rows[i][3] == f.pin
  {
    var a, p := ParseNat(f.account).value, ParseNat(f.pin).value;
    var r := Scan(rows, f.first, f.last, a, p);
    i :| 0 <= i < |rows| && Examine(rows[i], f.first, f.last, a, p) == Stop(r) &&
      forall j :: 0 <= j < i ==> Examine(rows[j], f.first, f.last, a, p) == Skip;
    assert Identifies(rows[i], f.first, f.last, a);
    ParseNatInjective(rows[i][2], f.account);
    ParseNatInjective(rows[i][3], f.pin);
  }

  /** In a well-formed table, the rewrite changes only the balance of the record the entries name. */
  lemma {:induction false} UpdateOnlyRecord(rows: Table, f: Fields, cell: string, i: nat)
    requires WellFormed(rows) && Canonical(f) && 1 <= i < |rows|
    requires Lower(rows[i][0]) == f.first && Lower(rows[i][1]) == f.last
    requires rows[i][2] == f.account && rows[i][3] == f.pin
    ensures UpdateRows(rows, f, cell) == Ok(rows[i := rows[i][4 := cell]])
  {
    var updated := rows[i := rows[i][4 := cell]];
    forall k | 0 <= k < |rows|
      ensures UpdateRow(rows[k], f, cell) == Ok(updated[k])
    {
      if k == 0 {
        assert !UpdateMatches(rows[0], f);
      } else if k != i {
        assert rows[k][2] != rows[i][2];
      }
    }
    var r := UpdateRows(rows, f, cell);
    assert r.Ok? && |r.value| == |updated|;
    assert forall k :: 0 <= k < |rows| ==> r.value[k] == updated[k];
    assert r.value == updated;
  }

  /** Replacing the balance of one record by a readable amount keeps the table well formed. */
  lemma {:induction false} RewriteKeepsWellFormed(rows: Table, i: nat, cell: string)
    requires WellFormed(rows) && 1 <= i < |rows| && ParseCents(cell).Some?
    ensures WellFormed(rows[i := rows[i][4 := cell]])
  {
    var t := rows[i := rows[i][4 := cell]];
    assert IsAccountRow(t[i]);
    forall j, k | 1 <= j < k < |t|
      ensures t[j][2] != t[k][2]
    {
      assert t[j][2] == rows[j][2] && t[k][2] == rows[k][2];
    }
  }

  /**
   * After a login, rewriting the balance with the same entries keeps the table well
   * formed, and the next login loads the new balance.
   */
  lemma {:induction false} PersistThenLogin(rows: Table, f: Fields, newBalance: int)
    requires WellFormed(rows) && Canonical(f)
    requires Login(Some(rows), f).Ok?
    ensures UpdateRows(rows, f, FormatCents(newBalance)).Ok?
    ensures WellFormed(UpdateRows(rows, f, FormatCents(newBalance)).value)
    ensures Login(Some(UpdateRows(rows, f, FormatCents(newBalance)).value), f) == Ok(newBalance)
  {
    var cell := FormatCents(newBalance);
    var i := LoggedInRecord(rows, f);
    UpdateOnlyRecord(rows, f, cell, i);
    ParseFormatCents(newBalance);
    RewriteKeepsWellFormed(rows, i, cell);
    LoginFindsRecord(rows[i := rows[i][4 := cell]], f, i);
  }

  // ---------------------------------------------------------------------------
  // Where the rules of login and of the rewrite part ways

  const SampleRows: Table := [Header, ["ann", "lee", "0012", "0042", "100"]]

  /** int() reads "0012" as 12 and "0042" as 42. */
  lemma {:induction false} ZeroPaddedNumbers()
    ensures ParseNat("0012") == Some(12) && ParseNat("0042") == Some(42)
  {
    ParseNatLeadingZero("12");
    ParseNatLeadingZero("012");
    ParseNatLeadingZero("42");
    ParseNatLeadingZero("042");
    assert "0" + "12" == "012" && "0" + "012" == "0012";
    assert "0" + "42" == "042" && "0" + "042" == "0042";
    assert ParseNat("12") == Some(12) by { assert "12"[..1] == "1"; }
    assert ParseNat("42") == Some(42) by { assert "42"[..1] == "4"; }
  }

  /** The header row lets the login scan of "ann lee" go on. */
  lemma {:induction false} HeaderSkipsAnn(account: nat, pin: nat)
    ensures Examine(Header, "ann", "lee", account, pin) == Skip
  {
    assert Lower(Header[0])[0] == 'f';
  }

  /** The record stored as "0012" / "0042" opens for the numbers 12 and 42. */
  lemma {:induction false} SampleRecordOpens()
    ensures Examine(SampleRows[1], "ann", "lee", 12, 42) == Stop(Ok(10000))
  {
    ZeroPaddedNumbers();
    OpeningBalanceCents();
    assert Lower("ann") == "ann" && Lower("lee") == "lee";
  }

  /** Login compares account numbers and PINs as integers: "12" and "42" open the record stored as "0012" / "0042". */
  lemma {:induction false} ShortNumberLogsIn()
    ensures Login(Some(SampleRows), Fields("ann", "lee", "12", "42")) == Ok(10000)
  {
    assert ParseNat("12") == Some(12) by { assert "12"[..1] == "1"; }
    assert ParseNat("42") == Some(42) by { assert "42"[..1] == "4"; }
    HeaderSkipsAnn(12, 42);
    SampleRecordOpens();
    assert SampleRows[1..] == [SampleRows[1]];
    assert Scan(SampleRows[1..], "ann", "lee", 12, 42) == Ok(10000);
  }

  /**
   * The rewrite compares account numbers and PINs as text, so after a login with "12" / "42"
   * a new balance of the session is written to no row: the file keeps the old balance.
   */
  lemma {:induction false} ShortNumberBalanceIsNotPersisted(cell: string)
    ensures UpdateRows(SampleRows, Fields("ann", "lee", "12", "42"), cell) == Ok(SampleRows)
  {
    var f := Fields("ann", "lee", "12", "42");
    assert UpdateRow(SampleRows[0], f, cell) == Ok(SampleRows[0]) by {
      assert Header[2] != "12";
    }
    assert UpdateRow(SampleRows[1], f, cell) == Ok(SampleRows[1]) by {
      assert SampleRows[1][2] != "12";
    }
    var r := UpdateRows(SampleRows, f, cell);
    assert r.Ok? && |r.value| == 2;
    assert r.value == SampleRows;
  }

  /** The header row, lower-cased, reads "first" and "last". */
  lemma {:induction false} HeaderNamesLowered()
    ensures Lower(Header[0]) == "first" && Lower(Header[1]) == "last"
  {
    assert Lower("First") == "first";
    assert Lower("Last") == "last";
  }

  /**
   * A user named "First Last" can create an account, but login reaches the header row
   * first, whose account number "Account#" int() cannot read.
   */
  lemma {:induction false} HeaderNamedUserCannotLogIn()
    ensures Create(None, Fields("first", "last", "1234", "5678")).Ok?
    ensures Login(Some(Create(None, Fields("first", "last", "1234", "5678")).value),
                  Fields("first", "last", "1234", "5678")) == Err(NotANumber)
  {
    var f := Fields("first", "last", "1234", "5678");
    var t := Create(None, f).value;
    assert t[0] == Header;
    HeaderNamesLowered();
    assert ParseNat(Header[2]).None? by { assert !IsDigit(Header[2][0]); }
    var a, p := ParseNat("1234").value, ParseNat("5678").value;
    assert Examine(t[0], "first", "last", a, p) == Stop(Err(NotANumber));
  }

  /**
   * Account creation checks only the length of the number and PIN, so "abcd" is accepted,
   * but int() never reads a text holding a letter, so every login with it fails.
   */
  lemma {:induction false} LettersAccountCannotLogIn(table: Option<Table>, f: Fields)
    requires Create(table, f).Ok?
    requires exists i :: 0 <= i < |f.account| && ('a' <= f.account[i] <= 'z' || 'A' <= f.account[i] <= 'Z')
    ensures Login(Some(Create(table, f).value), f) == Err(NotANumber)
  {
  }

  /** Depositing the amount just withdrawn restores the balance. */
  lemma {:induction false} WithdrawThenDeposit(balance: int, amountText: string)
    requires Withdraw(balance, amountText).Ok?
    ensures Deposit(Withdraw(balance, amountText).value, amountText) == Ok(balance)
  {
  }

  /** Withdrawing the amount just deposited restores a balance that was not overdrawn. */
  lemma {:induction false} DepositThenWithdraw(balance: int, amountText: string)
    requires balance >= 0 && Deposit(balance, amountText).Ok?
    ensures Withdraw(Deposit(balance, amountText).value, amountText) == Ok(balance)
  {
  }
}

=== FILE: text.dfy ===
/**
 * The string operations the account logic relies on: Python's str.lower() and
 * str.strip() (both restricted to ASCII), int() on a string of digits, and the
 * decimal text of a balance in cents.
 */
module Text {
  import opened Wrappers

  // ---------------------------------------------------------------------------
  // Case and whitespace

  /**
   * The ASCII characters str.strip() removes (those str.isspace() holds of): space,
   * tab, line feed, vertical tab, form feed, carriage return and the four
   * information separators U+001C to U+001F.
   */
  predicate IsSpace(c: char) {
    c == ' ' || ('\t' <= c <= '\r') || ('\U{1C}' <= c <= '\U{1F}')
  }

  predicate AllSpace(s: string) {
    forall i :: 0 <= i < |s| ==> IsSpace(s[i])
  }

  /** No whitespace at either end. */
  predicate Stripped(s: string) {
    s == [] || (!IsSpace(s[0]) && !IsSpace(s[|s| - 1]))
  }

  function LowerChar(c: char): (d: char)
    ensures 'A' <= c <= 'Z' ==> d as int == c as int + 32
    ensures !('A' <= c <= 'Z') ==> d == c
  {
    if 'A' <= c <= 'Z' then (c as int + 32) as char else c
  }

  /** str.lower() on ASCII letters: every character is mapped on its own. */
  function Lower(s: string): (r: string)
    ensures |r| == |s|
    ensures forall i {:trigger r[i]} :: 0 <= i < |s| ==> r[i] == LowerChar(s[i])
  {
    if s == [] then [] else [LowerChar(s[0])] + Lower(s[1..])
  }

  /** The number of whitespace characters s starts with. */
  function LeadingSpaces(s: string): (n: nat)
    ensures n <= |s| && forall i :: 0 <= i < n ==> IsSpace(s[i])
    ensures n < |s| ==> !IsSpace(s[n])
  {
    if s != [] && IsSpace(s[0]) then 1 + LeadingSpaces(s[1..]) else 0
  }

  /** The number of whitespace characters s ends with. */
  function TrailingSpaces(s: string): (n: nat)
    ensures n <= |s| && forall i :: |s| - n <= i < |s| ==> IsSpace(s[i])
    ensures n < |s| ==> !IsSpace(s[|s| - n - 1])
  {
    if s != [] && IsSpace(s[|s| - 1]) then 1 + TrailingSpaces(s[..|s| - 1]) else 0
  }

  /**
   * r is s with its leading and its trailing whitespace cut off: r is the stretch of s
   * after the leading whitespace, only whitespace follows it, and none is left at
   * either end of r.
   */
  predicate StripsTo(s: string, r: string) {
    LeadingSpaces(s) + |r| <= |s| &&
    r == s[LeadingSpaces(s)..LeadingSpaces(s) + |r|] &&
    (forall k :: LeadingSpaces(s) + |r| <= k < |s| ==> IsSpace(s[k])) &&
    Stripped(r)
  }

  /** str.strip(): the part of s between its leading and its trailing whitespace. */
  function Strip(s: string): (r: string)
    ensures StripsTo(s, r)
  {
    var i := LeadingSpaces(s);
    var t := s[i..];
    var j := |t| - TrailingSpaces(t);
    assert j > 0 ==> s[i + j - 1] == t[j - 1];
    assert forall k :: i + j <= k < |s| ==> s[k] == t[k - i];
    s[i..i + j]
  }

  // ---------------------------------------------------------------------------
  // Digits and int()

  predicate IsDigit(c: char) { '0' <= c <= '9' }

  predicate AllDigits(s: string) {
    forall i :: 0 <= i < |s| ==> IsDigit(s[i])
  }

  function DigitValue(c: char): (d: nat)
    requires IsDigit(c)
    ensures d < 10
  {
    c as int - '0' as int
  }

  function DigitChar(d: nat): (c: char)
    requires d < 10
    ensures IsDigit(c) && DigitValue(c) == d
  {
    ('0' as int + d) as char
  }

  /** int() on a non-empty run of ASCII digits; None where int() raises ValueError. */
  function ParseNat(s: string): (r: Option<nat>)
    ensures r.Some? <==> s != [] && AllDigits(s)
  {
    if s == [] || !IsDigit(s[|s| - 1]) then None
    else if |s| == 1 then Some(DigitValue(s[0]))
    else
      match ParseNat(s[..|s| - 1])
      case None => None
      case Some(v) => Some(10 * v + DigitValue(s[|s| - 1]))
  }

  /** The decimal digits of n, without leading zeros. */
  function FormatNat(n: nat): (r: string)
    ensures r != [] && AllDigits(r)
  {
    if n < 10 then [DigitChar(n)] else FormatNat(n / 10) + [DigitChar(n % 10)]
  }

  // ---------------------------------------------------------------------------
  // Balances in cents

  function WithFraction(whole: string, fraction: nat): Option<nat> {
    match ParseNat(whole)
    case None => None
    case Some(w) => Some(100 * w + fraction)
  }

  /** The unsigned forms "D+", "D+.", "D+.D" and "D+.DD", in cents. */
  function ParseUnsignedCents(s: string): Option<nat> {
    var n := |s|;
    if s != [] && AllDigits(s) then WithFraction(s, 0)
    else if n >= 2 && s[n - 1] == '.' then WithFraction(s[..n - 1], 0)
    else if n >= 3 && s[n - 2] == '.' && IsDigit(s[n - 1]) then
      WithFraction(s[..n - 2], 10 * DigitValue(s[n - 1]))
    else if n >= 4 && s[n - 3] == '.' && IsDigit(s[n - 2]) && IsDigit(s[n - 1]) then
      WithFraction(s[..n - 3], 10 * DigitValue(s[n - 2]) + DigitValue(s[n - 1]))
    else None
  }

  /** float() of a decimal amount, in cents, with an optional minus sign. */
  function ParseCents(s: string): Option<int> {
    if s != [] && s[0] == '-' then
      match ParseUnsignedCents(s[1..])
      case None => None
      case Some(v) => Some(-(v as int))
    else ParseUnsignedCents(s)
  }

  /** The text a balance of m >= 0 cents is stored as: the whole part, a point, two decimals. */
  function FormatUnsignedCents(m: nat): string {
    FormatNat(m / 100) + "." + [DigitChar(m % 100 / 10), DigitChar(m % 100 % 10)]
  }

  /** The text a balance of c cents is stored as, with a minus sign when it is negative. */
  function FormatCents(c: int): string {
    if c < 0 then "-" + FormatUnsignedCents(-c) else FormatUnsignedCents(c)
  }

  // ---------------------------------------------------------------------------
  // Lemmas

  /** Any stretch of a lower-cased string is already lower case. */
  lemma {:induction false} LowerFixesLowered(s: string, i: nat, j: nat)
    requires i <= j <= |s|
    ensures Lower(Lower(s)[i..j]) == Lower(s)[i..j]
  {
    var l := Lower(s)[i..j];
    forall k | 0 <= k < |l|
      ensures Lower(l)[k] == l[k]
    {
      assert l[k] == LowerChar(s[i + k]);
    }
  }

  /** Lower-casing neither adds nor removes whitespace. */
  lemma {:induction false} LowerKeepsSpace(s: string)
    ensures forall i :: 0 <= i < |s| ==> (IsSpace(Lower(s)[i]) <==> IsSpace(s[i]))
    ensures AllSpace(Lower(s)) <==> AllSpace(s)
  {
  }

  /** Stripping leaves nothing exactly when the text is all whitespace. */
  lemma {:induction false} StripEmpty(s: string)
    ensures Strip(s) == [] <==> AllSpace(s)
  {
    var n := LeadingSpaces(s);
    if AllSpace(s) {
      assert n == |s|;
    }
    if Strip(s) == [] {
      assert n == |s|;
    }
  }

  /**
   * What lower-casing then stripping does: the result is lower case, is the lowered
   * text with its surrounding whitespace cut off, and is empty exactly when the text
   * is all whitespace.
   */
  lemma {:induction false} LowerStrip(s: string)
    ensures Lower(Strip(Lower(s))) == Strip(Lower(s))
    ensures StripsTo(Lower(s), Strip(Lower(s)))
    ensures Strip(Lower(s)) == [] <==> AllSpace(s)
  {
    LowerOfStrippedLower(s);
    StripEmpty(Lower(s));
    LowerKeepsSpace(s);
  }

  /** Text without whitespace at either end is left as it is. */
  lemma {:induction false} StripFixesStripped(s: string)
    ensures Stripped(s) ==> Strip(s) == s
  {
    if Stripped(s) && s != [] {
      assert LeadingSpaces(s) == 0;
      assert !IsSpace(s[|s| - 1]);
    }
  }

  /** Stripping never re-introduces upper case: Strip(Lower(s)) is already lower case. */
  lemma {:induction false} LowerOfStrippedLower(s: string)
    ensures Lower(Strip(Lower(s))) == Strip(Lower(s))
  {
    var l := Lower(s);
    var k := LeadingSpaces(l);
    var r := Strip(l);
    assert StripsTo(l, r);
    LowerFixesLowered(s, k, k + |r|);
  }

  lemma {:induction false} ParseFormatNat(n: nat)
    ensures ParseNat(FormatNat(n)) == Some(n)
  {
    if n >= 10 {
      var s := FormatNat(n);
      ParseFormatNat(n / 10);
      assert s[..|s| - 1] == FormatNat(n / 10);
    }
  }

  /** int() ignores leading zeros: "0012" and "12" denote the same number. */
  lemma {:induction false} ParseNatLeadingZero(s: string)
    requires s != []
    ensures ParseNat("0" + s) == ParseNat(s)
  {
    var t := "0" + s;
    if |s| > 1 {
      assert t[..|t| - 1] == "0" + s[..|s| - 1];
      ParseNatLeadingZero(s[..|s| - 1]);
    }
  }

  /** Two digit strings of one length denote the same number only if they are equal. */
  lemma {:induction false} ParseNatInjective(s: string, t: string)
    requires |s| == |t|
    requires ParseNat(s).Some? && ParseNat(s) == ParseNat(t)
    ensures s == t
  {
    var n := |s|;
    if n > 1 {
      ParseNatInjective(s[..n - 1], t[..n - 1]);
      assert s == s[..n - 1] + [s[n - 1]];
      assert t == t[..n - 1] + [t[n - 1]];
    }
  }

  lemma {:induction false} CentsDigits(m: nat)
    ensures m == 100 * (m / 100) + 10 * (m % 100 / 10) + m % 100 % 10
  {
    var b := m % 100;
    assert m == 100 * (m / 100) + b;
    assert b == 10 * (b / 10) + b % 10;
  }

  lemma {:induction false} ParseFormatUnsignedCents(m: nat)
    ensures ParseUnsignedCents(FormatUnsignedCents(m)) == Some(m)
  {
    var w := FormatNat(m / 100);
    var u := FormatUnsignedCents(m);
    var n := |u|;
    ParseFormatNat(m / 100);
    assert u[..n - 3] == w;
    assert u[n - 3] == '.' && u[n - 2] == DigitChar(m % 100 / 10) && u[n - 1] == DigitChar(m % 100 % 10);
    assert !AllDigits(u) by { assert !IsDigit(u[n - 3]); }
    assert ParseUnsignedCents(u) == WithFraction(w, 10 * (m % 100 / 10) + m % 100 % 10);
    CentsDigits(m);
  }

  /**
   * float() reads only text that starts with a digit or a minus sign, a negative amount
   * is written with the sign, and a plain digit string is that many whole units.
   */
  lemma {:induction false} CentsText(s: string)
    ensures ParseCents(s).Some? ==> s != [] && (s[0] == '-' || IsDigit(s[0]))
    ensures ParseCents(s).Some? && ParseCents(s).value < 0 ==> s[0] == '-'
    ensures s != [] && AllDigits(s) ==> ParseCents(s) == Some(100 * ParseNat(s).value)
  {
    if ParseCents(s).Some? && s[0] != '-' {
      UnsignedCentsText(s);
    }
  }

  lemma {:induction false} UnsignedCentsText(s: string)
    ensures ParseUnsignedCents(s).Some? ==> s != [] && IsDigit(s[0])
  {
    var n := |s|;
    if ParseUnsignedCents(s).Some? && !AllDigits(s) {
      if n >= 2 && s[n - 1] == '.' {
        assert s[..n - 1][0] == s[0];
      } else if n >= 3 && s[n - 2] == '.' && IsDigit(s[n - 1]) {
        assert s[..n - 2][0] == s[0];
      } else {
        assert s[..n - 3][0] == s[0];
      }
    }
  }

  /**
   * The balance cell ends in a point and two digits, and starts with a minus sign
   * exactly when the balance is negative.
   */
  lemma {:induction false} CentsCell(c: int)
    ensures |FormatCents(c)| >= 4
    ensures FormatCents(c)[|FormatCents(c)| - 3] == '.'
    ensures IsDigit(FormatCents(c)[|FormatCents(c)| - 2]) && IsDigit(FormatCents(c)[|FormatCents(c)| - 1])
    ensures FormatCents(c)[0] == '-' <==> c < 0
  {
    var m := if c < 0 then -c else c;
    var w := FormatNat(m / 100);
    assert FormatUnsignedCents(m)[0] == w[0];
  }

  /** A stored balance reads back as the amount that was written. */
  lemma {:induction false} ParseFormatCents(c: int)
    ensures ParseCents(FormatCents(c)) == Some(c)
  {
    var m := if c < 0 then -c else c;
    var u := FormatUnsignedCents(m);
    ParseFormatUnsignedCents(m);
    if c < 0 {
      assert FormatCents(c)[1..] == u;
    } else {
      assert u[0] == FormatNat(m / 100)[0];
    }
  }
}

=== FILE: wrappers.dfy ===
/** The optional values and outcomes shared by the other modules. */
module Wrappers {

  datatype Option<+T> = None | Some(value: T)

  /** The outcome of an operation that can raise: a value, or the error it raised. */
  datatype Result<+T, +E> = Ok(value: T) | Err(error: E)
}
